=== FILE: README.md ===
# socialpet backend — a Dafny model of its route rules

This project models the decision logic of the socialpet REST backend (Express + Mongoose):
the bearer-token access guard, registration and login, profile lookup and update, the
follow toggle that keeps the two sides of the social graph in step, and the post
operations (create, list newest first, like toggle, comment, author-only delete) with the
post and comment schema rules.

Both MongoDB collections are one abstract `Store`: users and posts in maps keyed by
opaque ObjectId strings. Every route is modelled without side effects: it takes the
store, the request and the values the database and the clock supply, and gives a reply
(and, for writes, the new store). The routes that write (register, profile update, follow, create, like, comment, delete)
return an `Outcome`: the reply (HTTP status plus JSON body) and the new store. The
read-only lookups (`UserRoutes.GetUser`, `AuthRoutes.Me`, `AuthRoutes.CheckPassword`)
return only a `Reply`. Login and the post listing are methods: login because the database
may pick any user with the email, the listing because it is built by a sorting loop. The
reply messages are the source's own strings. The database supplies fresh ObjectIds and
the clock supplies save times; both are parameters. bcrypt and jsonwebtoken are
uninterpreted functions in a `Crypto` record. The model relies only on the promises
collected in `Tokens.Sound`:

- a password matches its own hash;
- a signed token is non-empty;
- a signed token verifies to its claims under the same secret.

Modules, one per concern of the source:

- `JsText`: JavaScript's `trim`, `indexOf` and `replace` with a string pattern.
- `MongoArrays`: the `$pull` and `$addToSet` array operators.
- `Tokens`: claims, the abstract crypto and the signing secret with its fallback.
- `PostSchema`: `models/Post.ts`.
- `Domain`: the store, the projections, replies and messages.
- `Guard`: `middleware/auth.ts`.
- `UserRoutes`, `PostRoutes`, `AuthRoutes`: the three route files.
- `Api`: the guard in front of every protected route, and the store invariant all routes keep.

Three behaviours of the routes are worth noting:

- `likes` is an array that is filtered or pushed. Uniqueness comes only from the toggle, and
  a duplicate already in the array collapses after two toggles
  (`PostRoutes.LikeTwiceCollapsesDuplicates`).
- The follow route checks the target before the caller, and each miss has its own 404 message.
- The profile-update conflict is a 400. A failed post validation is a 500.

## Model

| member | source | states |
|---|---|---|
| JsText.Trim | backend/src/models/Post.ts:20-24 | the result is a slice of the input with only whitespace cut from each end; it is empty exactly when the input is all ECMAScript whitespace, otherwise it starts and ends with a non-whitespace character |
| JsText.TrimIdempotent | backend/src/models/Post.ts:37-41 | trimming a trimmed value changes nothing |
| JsText.RemoveFirst | backend/src/middleware/auth.ts:15 | a string without the pattern comes back whole; otherwise exactly the first occurrence, wherever it is, is cut out |
| JsText.RemoveLeading | backend/src/middleware/auth.ts:15 | a leading occurrence is the one removed, leaving the rest |
| MongoArrays.Pull | backend/src/routes/users.ts:107-112 | every occurrence of the id is removed and every other id stays with its multiplicity; an absent id leaves the array as it was; duplicate-freedom is kept |
| MongoArrays.PullConcat | backend/src/routes/users.ts:107-112 | pulling works element by element, so the kept ids stay in their order |
| MongoArrays.AddToSet | backend/src/routes/users.ts:117-122 | an id already present leaves the array unchanged; an absent id is appended at the end; duplicate-freedom is kept |
| MongoArrays.PullAppended | backend/src/routes/users.ts:106-123 | pulling an id just appended to an array that lacked it gives the array back exactly |
| Tokens.SigningSecret | backend/src/routes/auth.ts:40 | the secret is the environment value whenever that is set and non-empty, and `'your-secret-key'` when it is unset or empty |
| Tokens.IssuedTokenDecodes | backend/src/routes/auth.ts:34-41 | a token the backend signs is non-empty and the backend's verify returns exactly its claims |
| PostSchema.RequiredText | backend/src/models/Post.ts:37-41 | a required trimmed field is accepted exactly when present and not all whitespace, and is stored trimmed |
| PostSchema.StoredTextIsTrimmed | backend/src/models/Post.ts:37-41 | a stored required string is a fixed point of trim |
| PostSchema.CastComment | backend/src/models/Post.ts:19-34 | a comment validates exactly when its content is non-blank and it has an author; content is stored trimmed; a missing date defaults to now |
| PostSchema.CastPost | backend/src/models/Post.ts:36-57 | a post validates exactly when its content is non-blank and it has an author; the image is kept as given; likes and comments start empty; both timestamps are the save time |
| PostSchema.ImageOptional | backend/src/models/Post.ts:42-44 | whether a post validates does not depend on its image |
| PostSchema.LikesUnconstrained | backend/src/models/Post.ts:50-53 | the schema accepts any likes array, duplicates included |
| PostSchema.AppendCommentValid | backend/src/models/Post.ts:54 | appending a valid comment keeps a post valid |
| Domain.ProjectionsHidePassword | backend/src/routes/users.ts:28 | neither the `-password` projection nor the five-field account depends on the stored password |
| Guard.ExtractToken | backend/src/middleware/auth.ts:15 | an absent header gives no token; a header without `"Bearer "` is passed through whole; otherwise exactly the first occurrence of `"Bearer "` is cut out, wherever it stands |
| Guard.Authenticate | backend/src/middleware/auth.ts:13-31 | admits exactly when the extracted token is non-empty and verifies, attaching the decoded claims; every rejection is the same 401 reply |
| Guard.BearerHeader | backend/src/middleware/auth.ts:15 | `Bearer <token>` yields exactly `<token>` |
| Guard.BareBearerRejected | backend/src/middleware/auth.ts:15-18 | the header `"Bearer "` leaves an empty token and is rejected with 401 |
| Guard.PrefixRemovedAnywhere | backend/src/middleware/auth.ts:15 | `"xBearer abc"` yields `"xabc"`: the prefix is removed away from the start too |
| Guard.IssuedTokenAdmitted | backend/src/middleware/auth.ts:21-28 | presenting a token the backend issued admits exactly the claims it was issued for |
| UserRoutes.GetUser | backend/src/routes/users.ts:25-40 | 404 exactly for an unknown id, otherwise 200 with that user's id, email, username, avatar, bio and edges |
| UserRoutes.UpdateProfile | backend/src/routes/users.ts:43-73 | 400 with the store unchanged exactly when a non-empty username belongs to a different user; otherwise the supplied fields are set, the others and all other users kept; a missing caller record gives 200 with null |
| UserRoutes.OwnUsernameAllowed | backend/src/routes/users.ts:52-60 | re-submitting one's own (unique) username is not a conflict |
| UserRoutes.UpdateKeepsUnique | backend/src/routes/users.ts:52-66 | a profile update with no username or a non-empty one keeps emails and usernames unique |
| UserRoutes.UpdateKeepsNamedUnique | backend/src/routes/users.ts:52-66 | every profile update keeps emails unique and non-empty usernames unique |
| UserRoutes.UpdateToEmptyNameDuplicates | backend/src/routes/users.ts:52 | an empty username skips the check, so two users can end up with the same (empty) name |
| UserRoutes.ToggleEdge | backend/src/routes/users.ts:102-124 | following the target means the edge is pulled from both arrays, otherwise it is added to both; nothing else in the user map changes |
| UserRoutes.Follow | backend/src/routes/users.ts:76-135 | 401 for a missing caller id, 400 for self-follow, 404 for a missing target and then for a missing caller, each with the store unchanged; on 200 the edge is toggled on both sides, every other entry of the caller's `following` and the target's `followers` stays, and no other field or user changes |
| UserRoutes.ToggleEdgeKeepsNoDuplicates | backend/src/routes/users.ts:106-123 | the two arrays the toggle rewrites gain no duplicate |
| UserRoutes.FollowKeepsUnique | backend/src/routes/users.ts:102-124 | a follow call changes no email and no username, so both stay unique |
| UserRoutes.ToggleEdgeKeepsSymmetric | backend/src/routes/users.ts:102-124 | pulling or adding the edge on both sides keeps every follow mirrored by a follower entry |
| UserRoutes.ToggleEdgeKeepsClosed | backend/src/routes/users.ts:102-124 | a toggle between two distinct existing users creates no self-follow and no edge to an unknown id |
| UserRoutes.FollowKeepsSymmetric | backend/src/routes/users.ts:76-135 | every follow call, answered with any status, keeps the graph symmetric |
| UserRoutes.FollowKeepsInvariant | backend/src/routes/users.ts:76-135 | every follow call keeps the graph invariant |
| UserRoutes.FollowTwiceRestores | backend/src/routes/users.ts:102-124 | from a symmetric graph two calls restore both users' arrays as sets, and identically when the edge was absent at the start (the converse does not hold); no other user changes |
| PostRoutes.CreatePost | backend/src/routes/posts.ts:10-33 | 401 for a missing caller id, 500 for missing or blank content, each with the store unchanged; otherwise 201 answering with the one post added under the new id, users and other posts untouched |
| PostRoutes.CreatedPost | backend/src/routes/posts.ts:15-21 | a created post is authored by the caller, holds the trimmed content and the given image, has no likes or comments, carries the save time twice and passes the schema |
| PostRoutes.ToggleLike | backend/src/routes/posts.ts:62-68 | a liking user is removed entirely by `$pull`-style filtering, keeping every other liker in order and with its count; a non-liking one is appended once; duplicate-freedom is kept |
| PostRoutes.LikeTwice | backend/src/routes/posts.ts:62-68 | two toggles give the likes back identically when the user had not liked (the converse does not hold), and as a set always |
| PostRoutes.LikeTwiceCollapsesDuplicates | backend/src/routes/posts.ts:62-68 | a user listed twice ends up listed once after two toggles |
| PostRoutes.LikePost | backend/src/routes/posts.ts:50-77 | 401, then 404 for an unknown post with the store unchanged; on 200 only the likes and updatedAt of that post change, the likes being the toggle of the caller |
| PostRoutes.AddComment | backend/src/routes/posts.ts:80-105 | 401, 404, 500 for blank content, each with the store unchanged; on 200 exactly one comment by the caller is appended and earlier comments stay |
| PostRoutes.DeletePost | backend/src/routes/posts.ts:108-128 | 401, 404, and 403 for a caller other than the author, each with the store unchanged; the author's delete removes that post only |
| PostRoutes.NewestExists | backend/src/routes/posts.ts:38-41 | any non-empty set of posts has a newest one |
| PostRoutes.ListPosts | backend/src/routes/posts.ts:36-47 | the feed holds every stored post exactly once with its id, ordered by createdAt descending |
| AuthRoutes.Register | backend/src/routes/auth.ts:11-56 | 400 with the store unchanged exactly when the email or the username is taken; otherwise 201, the stored password is the bcrypt hash, and the token carries the new user's id, email and username |
| AuthRoutes.CheckPassword | backend/src/routes/auth.ts:68-91 | 200 with a session exactly when the password matches the stored hash, otherwise the same 401 as an unknown email |
| AuthRoutes.Login | backend/src/routes/auth.ts:59-95 | an unknown email and a wrong password give the identical 401; a 200 is for a user with that email whose hash matches, with that user's claims and account |
| AuthRoutes.Me | backend/src/routes/auth.ts:98-115 | 401 for a missing id claim, 404 for an id without a user, otherwise 200 with the profile |
| AuthRoutes.RegisterKeepsUnique | backend/src/routes/auth.ts:15-32 | registration keeps emails and usernames unique |
| AuthRoutes.RegisterKeepsNamedUnique | backend/src/routes/auth.ts:15-32 | registration keeps emails unique and non-empty usernames unique |
| AuthRoutes.SecondRegistrationRefused | backend/src/routes/auth.ts:15-23 | after a registration, another reusing its email or its username is refused |
| AuthRoutes.RegisterThenLogin | backend/src/routes/auth.ts:63-90 | after registering, the new user is the only one with that email and logging in with the password gives the reply registration gave |
| AuthRoutes.RegisterThenMe | backend/src/routes/auth.ts:98-111 | the registered token, presented as a bearer header, is admitted with the new user's claims and `/me` returns that user's profile |
| Api.Handle | backend/src/middleware/auth.ts:13-31 | a request without a header, or with a bare `"Bearer "`, gets the 401 and leaves the store alone; whatever header the guard admits, with or without the prefix, the route runs with exactly the claims it decoded |
| Api.RouteNeverLooksLikeGuard | backend/src/middleware/auth.ts:29-30 | no handler answers with the guard's rejection |
| Api.LikeKeepsPostsValid | backend/src/routes/posts.ts:61-70 | a like toggle keeps every post valid and its likes duplicate-free |
| Api.CreateKeepsPostsValid | backend/src/routes/posts.ts:15-21 | creating a post keeps every post valid and every likes array duplicate-free |
| Api.CommentKeepsPostsValid | backend/src/routes/posts.ts:91-97 | adding a comment keeps every post valid |
| Api.RouteKeepsConsistent | backend/src/middleware/auth.ts:13-31 | every protected route keeps the graph invariant, the post invariants, unique emails and unique non-empty usernames |
| Api.HandleKeepsConsistent | backend/src/middleware/auth.ts:13-31 | every protected request, admitted or not, keeps the store consistent |
| Api.RegisterKeepsGraph | backend/src/routes/auth.ts:26-32 | a registered user starts with no edges, and no existing edge names the fresh id, so the graph invariant holds |
| Api.RegisterKeepsConsistent | backend/src/routes/auth.ts:15-32 | registration keeps the whole store consistent |

## Left out

- The HTTP, Express and MongoDB plumbing of `backend/src/index.ts` is not part of this model. Neither is the upload route or the Cloudinary configuration: they are foreign-service calls and environment checks.
- bcrypt and jsonwebtoken are uninterpreted. The random salt is a parameter. The `iat` claim jsonwebtoken adds is not modelled, so the claims are exactly `{_id, email, username}`.
- The `_id` Mongoose gives each embedded comment is not modelled: no route reads it, so a comment is its content, author and date.
- `populate` is not modelled: replies carry author ids, not `{username, avatar}` summaries.
- ObjectId cast failures are not modelled. Ids are opaque strings, and the empty string stands only for a token payload without `_id`.
- Ids are assumed to be canonical lower-case hex. MongoDB compares ObjectIds by their bytes, so `POST /users/<the caller's id in upper case>/follow` is a self-follow (400) there; in the model the two spellings are different keys and the request gets 404. The same holds for the lookups in `GET /users/:id`, for the follow target, for the post lookups `Post.findById(req.params.id)` of the like, comment and delete routes, and for the user lookup of `/auth/me`.
- The catch-all 400/500 replies for database or I/O failures are not modelled. The schema-validation failures of post and comment saves are modelled.
- PostRoutes.CreatePost: the 500 reply carries only `{ message }`. The source also sends `error`, the validation error's text, and logs through `console.error`; neither is modelled.
- The two writes of the follow toggle are one atomic step. The `Promise.all` interleavings and partial failure are not modelled.
- The User schema is not part of this model. Its defaults and validators are not modelled: a new user has no avatar and no bio. A profile update writes an empty username as given.
- UserRoutes.UpdateProfile: an empty username skips the conflict check (`if (updates.username)`) and is written as given, so several users can share it (`UserRoutes.UpdateToEmptyNameDuplicates`). A unique index or validator in the User schema may refuse it, but that schema is not part of this model. So the store invariant `Api.Consistent` promises unique usernames only for non-empty names.
- `$set` is assumed to skip the fields the request left undefined.
- Missing request-body fields in register and login are not modelled: email, username and password are strings.
- Timestamps are abstract naturals supplied by the caller.
- AuthRoutes.Login: when several users share an email, the database may return any of them. The model takes any of them, so it states success as "some user with that email matches". The exact if-and-only-if holds only under unique emails, which every route keeps (`Api.Consistent`).
- PostRoutes.ListPosts: posts with equal `createdAt` may come in any order, as with the database's sort.

=== FILE: api.dfy ===
/** The protected routes behind the `auth` middleware, and the store invariant every
    route keeps. */
module Api {
  import opened Wrappers
  import opened Ids
  import opened Tokens
  import opened MongoArrays
  import opened PostSchema
  import opened Domain
  import opened Guard
  import UserRoutes
  import PostRoutes
  import AuthRoutes

  /** A request to a route mounted behind `auth`, with the values the database and the
      clock supply (fresh ids, save times). */
  datatype Request =
    | GetMe
    | GetProfile(id: Id)
    | EditProfile(username: Option<string>, avatar: Option<string>, bio: Option<string>)
    | ToggleFollow(target: Id)
    | NewPost(content: Option<string>, image: Option<string>, newId: Id, now: Time)
    | Like(post: Id, now: Time)
    | NewComment(post: Id, content: Option<string>, now: Time)
    | RemovePost(post: Id)

  predicate FreshFor(s: Store, req: Request) {
    req.NewPost? ==> req.newId !in s.posts
  }

  /** The handler a request reaches once the guard has attached `claims`. */
  function Route(s: Store, claims: Claims, req: Request): Outcome
    requires FreshFor(s, req)
  {
    match req
    case GetMe => Outcome(AuthRoutes.Me(s, claims), s)
    case GetProfile(id) => Outcome(UserRoutes.GetUser(s, id), s)
    case EditProfile(username, avatar, bio) => UserRoutes.UpdateProfile(s, claims.id, username, avatar, bio)
    case ToggleFollow(target) => UserRoutes.Follow(s, claims.id, target)
    case NewPost(content, image, newId, now) => PostRoutes.CreatePost(s, claims.id, content, image, newId, now)
    case Like(post, now) => PostRoutes.LikePost(s, claims.id, post, now)
    case NewComment(post, content, now) => PostRoutes.AddComment(s, claims.id, post, content, now)
    case RemovePost(post) => PostRoutes.DeletePost(s, claims.id, post)
  }

  /** A protected request: the guard either answers 401 with the store untouched, or
      passes the verified claims to the handler, whose outcome is the answer. */
  function Handle(s: Store, cfg: Config, header: Option<string>, req: Request): (out: Outcome)
    requires FreshFor(s, req)
    ensures header.None? ==> out == Outcome(Unauthenticated, s)
    ensures header == Some(BearerPrefix) ==> out == Outcome(Unauthenticated, s)
    ensures out.reply == Unauthenticated && out.store == s <==> Authenticate(cfg, header).Deny?
    ensures forall claims :: Authenticate(cfg, header) == Admit(claims) ==> out == Route(s, claims, req)
    ensures forall token, claims ::
              token != "" && Decode(cfg, token) == Some(claims) && header == Some(BearerPrefix + token)
              ==> out == Route(s, claims, req)
  {
    BareBearerRejected(cfg);
    forall token | header == Some(BearerPrefix + token) {
      BearerHeader(token);
    }
    match Authenticate(cfg, header)
    case Deny(reply) => Outcome(reply, s)
    case Admit(claims) =>
      var out := Route(s, claims, req);
      assert out.reply != Unauthenticated || out.store != s by { RouteNeverLooksLikeGuard(s, claims, req); }
      out
  }

  /** No handler answers with the guard's 401 message, so a guard rejection is always
      recognisable. */
  lemma RouteNeverLooksLikeGuard(s: Store, claims: Claims, req: Request)
    requires FreshFor(s, req)
    ensures Route(s, claims, req).reply != Unauthenticated
  {
  }

  // ---- The store invariant ----

  predicate PostsValid(posts: map<Id, Post>) {
    forall k :: k in posts ==> ValidPost(posts[k]) && NoDuplicates(posts[k].likes)
  }

  /** What every reachable store satisfies: a symmetric, closed, loop-free social graph,
      posts that pass their schema, likes without duplicates, unique emails, and unique
      usernames apart from the empty one, which a profile update may give to several
      users (`UserRoutes.UpdateToEmptyNameDuplicates`). */
  predicate Consistent(s: Store) {
    && UserRoutes.GraphInvariant(s.users) && PostsValid(s.posts)
    && UniqueEmails(s.users) && UniqueNamedUsernames(s.users)
  }

  /** Replacing user documents without touching any `following`/`followers` array keeps
      the graph invariant. */
  lemma SameEdgesKeepInvariant(users: map<Id, User>, users': map<Id, User>)
    requires UserRoutes.GraphInvariant(users)
    requires users'.Keys == users.Keys
    requires forall k :: k in users ==> users'[k].following == users[k].following && users'[k].followers == users[k].followers
    ensures UserRoutes.GraphInvariant(users')
  {
  }

  lemma LikeKeepsPostsValid(s: Store, callerId: Id, post: Id, now: Time)
    requires PostsValid(s.posts)
    ensures PostsValid(PostRoutes.LikePost(s, callerId, post, now).store.posts)
  {
    var s' := PostRoutes.LikePost(s, callerId, post, now).store;
    if s' != s {
      LikesUnconstrained(s.posts[post], s'.posts[post].likes);
    }
  }

  lemma CommentKeepsPostsValid(s: Store, callerId: Id, post: Id, content: Option<string>, now: Time)
    requires PostsValid(s.posts)
    ensures PostsValid(PostRoutes.AddComment(s, callerId, post, content, now).store.posts)
  {
    var s' := PostRoutes.AddComment(s, callerId, post, content, now).store;
    if s' != s {
      var p, p' := s.posts[post], s'.posts[post];
      var c := p'.comments[|p.comments|];
      assert p'.comments == p.comments + [c];
      AppendCommentValid(p, c);
      assert ValidPost(p') && NoDuplicates(p'.likes);
      forall k | k in s'.posts
        ensures ValidPost(s'.posts[k]) && NoDuplicates(s'.posts[k].likes)
      {
        if k != post {
          assert s'.posts[k] == s.posts[k];
        }
      }
    }
  }

  lemma CreateKeepsPostsValid(s: Store, callerId: Id, content: Option<string>, image: Option<string>, newId: Id, now: Time)
    requires newId !in s.posts && PostsValid(s.posts)
    ensures PostsValid(PostRoutes.CreatePost(s, callerId, content, image, newId, now).store.posts)
  {
    var out := PostRoutes.CreatePost(s, callerId, content, image, newId, now);
    if out.reply.status == 201 {
      PostRoutes.CreatedPost(s, callerId, content, image, newId, now);
      var posts := out.store.posts;
      assert ValidPost(posts[newId]) && posts[newId].likes == [];
      forall k | k in posts
        ensures ValidPost(posts[k]) && NoDuplicates(posts[k].likes)
      {
        if k != newId {
          assert posts[k] == s.posts[k];
        }
      }
    }
  }

  lemma DeleteKeepsPostsValid(s: Store, callerId: Id, post: Id)
    requires PostsValid(s.posts)
    ensures PostsValid(PostRoutes.DeletePost(s, callerId, post).store.posts)
  {
  }

  /** Every protected route keeps the store consistent. */
  lemma RouteKeepsConsistent(s: Store, claims: Claims, req: Request)
    requires FreshFor(s, req) && Consistent(s)
    ensures Consistent(Route(s, claims, req).store)
  {
    match req {
      case GetMe =>
        assert Route(s, claims, req).store == s;
      case GetProfile(_) =>
        assert Route(s, claims, req).store == s;
      case EditProfile(username, avatar, bio) =>
        var s' := UserRoutes.UpdateProfile(s, claims.id, username, avatar, bio).store;
        assert Route(s, claims, req).store == s';
        SameEdgesKeepInvariant(s.users, s'.users);
        UserRoutes.UpdateKeepsNamedUnique(s, claims.id, username, avatar, bio);
      case ToggleFollow(target) =>
        var s' := UserRoutes.Follow(s, claims.id, target).store;
        assert Route(s, claims, req).store == s';
        UserRoutes.FollowKeepsInvariant(s, claims.id, target);
        UserRoutes.FollowKeepsUnique(s, claims.id, target);
      case NewPost(content, image, newId, now) =>
        var s' := PostRoutes.CreatePost(s, claims.id, content, image, newId, now).store;
        assert Route(s, claims, req).store == s';
        CreateKeepsPostsValid(s, claims.id, content, image, newId, now);
      case Like(post, now) =>
        var s' := PostRoutes.LikePost(s, claims.id, post, now).store;
        assert Route(s, claims, req).store == s';
        LikeKeepsPostsValid(s, claims.id, post, now);
      case NewComment(post, content, now) =>
        var s' := PostRoutes.AddComment(s, claims.id, post, content, now).store;
        assert Route(s, claims, req).store == s';
        CommentKeepsPostsValid(s, claims.id, post, content, now);
      case RemovePost(post) =>
        var s' := PostRoutes.DeletePost(s, claims.id, post).store;
        assert Route(s, claims, req).store == s';
        DeleteKeepsPostsValid(s, claims.id, post);
    }
  }

  /** Every protected request, admitted or not, keeps the store consistent. */
  lemma HandleKeepsConsistent(s: Store, cfg: Config, header: Option<string>, req: Request)
    requires FreshFor(s, req) && Consistent(s)
    ensures Consistent(Handle(s, cfg, header, req).store)
  {
    if Authenticate(cfg, header).Admit? {
      RouteKeepsConsistent(s, Authenticate(cfg, header).claims, req);
    }
  }

  /** Registration keeps the store consistent: the new user has no edges, and no existing
      edge can name the fresh id. */
  lemma RegisterKeepsConsistent(s: Store, cfg: Config, email: string, username: string, password: string, newId: Id, salt: Salt)
    requires newId !in s.users && Present(newId)
    requires Consistent(s)
    ensures Consistent(AuthRoutes.Register(s, cfg, email, username, password, newId, salt).store)
  {
    AuthRoutes.RegisterKeepsNamedUnique(s, cfg, email, username, password, newId, salt);
    RegisterKeepsGraph(s, cfg, email, username, password, newId, salt);
  }

  /** A user without edges, under an id no edge names, keeps the graph invariant. */
  lemma RegisterKeepsGraph(s: Store, cfg: Config, email: string, username: string, password: string, newId: Id, salt: Salt)
    requires newId !in s.users && Present(newId)
    requires UserRoutes.GraphInvariant(s.users)
    ensures UserRoutes.GraphInvariant(AuthRoutes.Register(s, cfg, email, username, password, newId, salt).store.users)
  {
    var users' := AuthRoutes.Register(s, cfg, email, username, password, newId, salt).store.users;
    if users' != s.users {
      forall a, b | a in users' && b in users'
        ensures b in users'[a].following <==> a in users'[b].followers
      {
        if a != newId && b != newId {
          assert users'[a] == s.users[a] && users'[b] == s.users[b];
        }
      }
    }
  }
}

=== FILE: auth_routes.dfy ===
/** The `/auth` routes: registration, login and the current-user lookup. */
module AuthRoutes {
  import opened Wrappers
  import opened Ids
  import opened Tokens
  import opened Domain
  import Guard

  /** The claims a token issued for a stored user carries: `{_id, email, username}`. */
  function ClaimsOf(id: Id, u: User): Claims {
    Claims(id, u.email, u.username)
  }

  /** `User.findOne({ $or: [{ email }, { username }] })` finds a document. */
  predicate AccountTaken(users: map<Id, User>, email: string, username: string) {
    exists k :: k in users && (users[k].email == email || users[k].username == username)
  }

  /** The document registration stores: the bcrypt hash in place of the password, no
      avatar, no bio, no edges. */
  function NewUser(cfg: Config, email: string, username: string, password: string, salt: Salt): User {
    User(email, username, cfg.crypto.hash(password, HashRounds, salt), None, None, [], [])
  }

  /** The reply register and login share: a token for the user's claims and the
      five-field account projection. */
  function SessionFor(cfg: Config, id: Id, u: User): Body {
    Session(Issue(cfg, ClaimsOf(id, u)), AccountOf(id, u))
  }

  /** POST /auth/register. `newId` is the fresh ObjectId the database assigns and `salt`
      the salt bcrypt draws. */
  function Register(s: Store, cfg: Config, email: string, username: string, password: string, newId: Id, salt: Salt): (out: Outcome)
    requires newId !in s.users && Present(newId)
    ensures out.reply.status == 400 <==> AccountTaken(s.users, email, username)
    ensures out.reply.status == 400 ==> out == Reject(s, 400, AccountExists)
    ensures out.reply.status != 400 ==> out.reply.status == 201
    ensures out.store.posts == s.posts
    ensures out.reply.status == 201 ==>
              && out.store.users.Keys == s.users.Keys + {newId}
              && (forall k :: k in s.users ==> out.store.users[k] == s.users[k])
              && var u := out.store.users[newId];
                 && u.email == email && u.username == username
                 && u.password == cfg.crypto.hash(password, HashRounds, salt)
                 && u.following == [] && u.followers == []
                 && out.reply.body == Session(Issue(cfg, Claims(newId, email, username)), AccountOf(newId, u))
  {
    if AccountTaken(s.users, email, username) then Reject(s, 400, AccountExists)
    else
      var u := NewUser(cfg, email, username, password, salt);
      Outcome(Reply(201, SessionFor(cfg, newId, u)), s.(users := s.users[newId := u]))
  }

  /** Login once `findOne({ email })` has returned the document `id`: the same 401 as
      for an unknown email when the password does not match. */
  function CheckPassword(s: Store, cfg: Config, id: Id, password: string): (r: Reply)
    requires id in s.users
    ensures r.status == 200 <==> cfg.crypto.compare(password, s.users[id].password)
    ensures r.status != 200 ==> r == MessageReply(401, BadCredentials)
    ensures r.status == 200 ==> r.body == SessionFor(cfg, id, s.users[id])
  {
    if cfg.crypto.compare(password, s.users[id].password) then Reply(200, SessionFor(cfg, id, s.users[id]))
    else MessageReply(401, BadCredentials)
  }

  /** POST /auth/login. The database may return any user with the given email; with
      unique emails (which registration keeps) there is at most one. An unknown email and
      a wrong password give the identical reply. The store is not changed. */
  method Login(s: Store, cfg: Config, email: string, password: string) returns (reply: Reply)
    ensures (forall k :: k in s.users ==> s.users[k].email != email) ==> reply == MessageReply(401, BadCredentials)
    ensures reply.status != 200 ==> reply == MessageReply(401, BadCredentials)
    ensures reply.status == 200 ==>
              exists k :: k in s.users && s.users[k].email == email
                          && cfg.crypto.compare(password, s.users[k].password)
                          && reply.body == SessionFor(cfg, k, s.users[k])
    ensures UniqueEmails(s.users) ==>
              (reply.status == 200 <==>
                 exists k :: k in s.users && s.users[k].email == email && cfg.crypto.compare(password, s.users[k].password))
  {
    if exists k :: k in s.users && s.users[k].email == email {
      var k :| k in s.users && s.users[k].email == email;
      reply := CheckPassword(s, cfg, k, password);
    } else {
      reply := MessageReply(401, BadCredentials);
    }
  }

  /** GET /auth/me — the caller's profile without the password. */
  function Me(s: Store, claims: Claims): (r: Reply)
    ensures !Present(claims.id) ==> r == MessageReply(401, NotAuthorized)
    ensures Present(claims.id) && claims.id !in s.users ==> r == MessageReply(404, UserNotFound)
    ensures r.status == 200 <==> Present(claims.id) && claims.id in s.users
    ensures r.status == 200 ==> r.body == UserDoc(ProfileOf(claims.id, s.users[claims.id]))
  {
    if !Present(claims.id) then MessageReply(401, NotAuthorized)
    else if claims.id !in s.users then MessageReply(404, UserNotFound)
    else Reply(200, UserDoc(ProfileOf(claims.id, s.users[claims.id])))
  }

  /** Registration keeps emails and usernames unique. */
  lemma RegisterKeepsUnique(s: Store, cfg: Config, email: string, username: string, password: string, newId: Id, salt: Salt)
    requires newId !in s.users && Present(newId)
    requires UniqueEmails(s.users) && UniqueUsernames(s.users)
    ensures var users' := Register(s, cfg, email, username, password, newId, salt).store.users;
            UniqueEmails(users') && UniqueUsernames(users')
  {
    var out := Register(s, cfg, email, username, password, newId, salt);
    if out.reply.status == 201 {
      var users' := out.store.users;
      assert forall k :: k in s.users ==> users'[k] == s.users[k];
    }
  }

  /** Registration refuses any name already held, so non-empty names stay unique too. */
  lemma RegisterKeepsNamedUnique(s: Store, cfg: Config, email: string, username: string, password: string, newId: Id, salt: Salt)
    requires newId !in s.users && Present(newId)
    requires UniqueEmails(s.users) && UniqueNamedUsernames(s.users)
    ensures var users' := Register(s, cfg, email, username, password, newId, salt).store.users;
            UniqueEmails(users') && UniqueNamedUsernames(users')
  {
    var out := Register(s, cfg, email, username, password, newId, salt);
    if out.reply.status == 201 {
      var users' := out.store.users;
      assert forall k :: k in s.users ==> users'[k] == s.users[k];
    }
  }

  /** After a successful registration, a second one reusing the email or the username is
      refused, whatever the other fields. */
  lemma SecondRegistrationRefused(s: Store, cfg: Config, email: string, username: string, password: string, newId: Id, salt: Salt,
                                  email2: string, username2: string, password2: string, newId2: Id, salt2: Salt)
    requires newId !in s.users && Present(newId)
    requires Register(s, cfg, email, username, password, newId, salt).reply.status == 201
    requires var s' := Register(s, cfg, email, username, password, newId, salt).store;
             newId2 !in s'.users && Present(newId2)
    requires email2 == email || username2 == username
    ensures var s' := Register(s, cfg, email, username, password, newId, salt).store;
            Register(s', cfg, email2, username2, password2, newId2, salt2) == Reject(s', 400, AccountExists)
  {
    var s' := Register(s, cfg, email, username, password, newId, salt).store;
    assert s'.users[newId].email == email && s'.users[newId].username == username;
    assert AccountTaken(s'.users, email2, username2);
  }

  /** Register, then log in with the same email and password: the login succeeds, the
      registered user is the only one with that email, and the reply is the one
      registration gave. */
  lemma RegisterThenLogin(s: Store, cfg: Config, email: string, username: string, password: string, newId: Id, salt: Salt)
    requires Sound(cfg.crypto)
    requires newId !in s.users && Present(newId)
    requires Register(s, cfg, email, username, password, newId, salt).reply.status == 201
    ensures var out := Register(s, cfg, email, username, password, newId, salt);
            && (forall k :: k in out.store.users && out.store.users[k].email == email ==> k == newId)
            && CheckPassword(out.store, cfg, newId, password) == Reply(200, out.reply.body)
  {
    var out := Register(s, cfg, email, username, password, newId, salt);
  }

  /** Register, then call GET /auth/me with `Bearer <the token>`: the guard admits the
      registered claims and the reply is the new user's profile. */
  lemma RegisterThenMe(s: Store, cfg: Config, email: string, username: string, password: string, newId: Id, salt: Salt)
    requires Sound(cfg.crypto)
    requires newId !in s.users && Present(newId)
    requires Register(s, cfg, email, username, password, newId, salt).reply.status == 201
    ensures var out := Register(s, cfg, email, username, password, newId, salt);
            var header := Some(Guard.BearerPrefix + out.reply.body.token);
            && Guard.Authenticate(cfg, header) == Guard.Admit(Claims(newId, email, username))
            && Me(out.store, Claims(newId, email, username)) == Reply(200, UserDoc(ProfileOf(newId, out.store.users[newId])))
  {
    Guard.IssuedTokenAdmitted(cfg, Claims(newId, email, username));
  }
}

=== FILE: domain.dfy ===
/** The abstract document store the route handlers read and write, the user projections
    they send back, and the replies (HTTP status plus JSON body) they produce. */
module Domain {
  import opened Wrappers
  import opened Ids
  import opened PostSchema

  /** A user document. `password` holds the bcrypt hash, never the plaintext.
      `following`/`followers` are arrays of user ids. */
  datatype User = User(
    email: string,
    username: string,
    password: string,
    avatar: Option<string>,
    bio: Option<string>,
    following: seq<Id>,
    followers: seq<Id>)

  /** Both collections, keyed by ObjectId. */
  datatype Store = Store(users: map<Id, User>, posts: map<Id, Post>)

  /** A user document read with `.select('-password')`: every field but the password. */
  datatype Profile = Profile(
    id: Id,
    email: string,
    username: string,
    avatar: Option<string>,
    bio: Option<string>,
    following: seq<Id>,
    followers: seq<Id>)

  /** The five-field user object register and login put next to the token. */
  datatype Account = Account(id: Id, email: string, username: string, avatar: Option<string>, bio: Option<string>)

  function ProfileOf(id: Id, u: User): Profile {
    Profile(id, u.email, u.username, u.avatar, u.bio, u.following, u.followers)
  }

  function AccountOf(id: Id, u: User): Account {
    Account(id, u.email, u.username, u.avatar, u.bio)
  }

  /** Neither projection depends on the stored password: no reply can reveal it. */
  lemma ProjectionsHidePassword(id: Id, u: User, other: string)
    ensures ProfileOf(id, u.(password := other)) == ProfileOf(id, u)
    ensures AccountOf(id, u.(password := other)) == AccountOf(id, u)
  {
  }

  /** No two users share an email. */
  predicate UniqueEmails(users: map<Id, User>) {
    forall a, b :: a in users && b in users && users[a].email == users[b].email ==> a == b
  }

  /** No two users share a username. */
  predicate UniqueUsernames(users: map<Id, User>) {
    forall a, b :: a in users && b in users && users[a].username == users[b].username ==> a == b
  }

  /** No two users share a non-empty username; any number may hold the empty one. */
  predicate UniqueNamedUsernames(users: map<Id, User>) {
    forall a, b :: a in users && b in users && users[a].username != "" && users[a].username == users[b].username ==> a == b
  }

  /** Uniqueness depends on emails and names only. */
  lemma SameNamesKeepUnique(users: map<Id, User>, users': map<Id, User>)
    requires users'.Keys == users.Keys
    requires forall k :: k in users ==> users'[k].email == users[k].email && users'[k].username == users[k].username
    requires UniqueEmails(users) && UniqueNamedUsernames(users)
    ensures UniqueEmails(users') && UniqueNamedUsernames(users')
  {
  }

  /** One element of the post listing: the document and its `_id`. */
  datatype Entry = Entry(id: Id, post: Post)

  /** JSON bodies. `Null` is what `res.json(null)` sends. */
  datatype Body =
    | Message(text: string)
    | Null
    | UserDoc(profile: Profile)
    | Session(token: string, account: Account)
    | PostDoc(id: Id, post: Post)
    | Feed(entries: seq<Entry>)

  datatype Reply = Reply(status: nat, body: Body)

  /** What a handler produces: the reply and the store after it. */
  datatype Outcome = Outcome(reply: Reply, store: Store)

  // Reply messages, verbatim.
  const NotAuthorized := "Не авторизован"
  const PleaseLogIn := "Пожалуйста, авторизуйтесь"
  const UserNotFound := "Пользователь не найден"
  const CurrentUserNotFound := "Текущий пользователь не найден"
  const UsernameTaken := "Это имя пользователя уже занято"
  const CannotFollowSelf := "Нельзя подписаться на самого себя"
  const AccountExists := "Пользователь с таким email или username уже существует"
  const BadCredentials := "Неверный email или пароль"
  const PostNotFound := "Пост не найден"
  const NotPostOwner := "Нет прав на удаление этого поста"
  const PostDeleted := "Пост успешно удален"
  const CreatePostFailed := "Ошибка при создании поста"
  const AddCommentFailed := "Ошибка при добавлении комментария"

  /** A reply whose body is `{ message: text }`. */
  function MessageReply(status: nat, text: string): Reply {
    Reply(status, Message(text))
  }

  /** A rejection: the reply, and the store exactly as it was. */
  function Reject(s: Store, status: nat, text: string): Outcome {
    Outcome(MessageReply(status, text), s)
  }
}

=== FILE: guard.dfy ===
/** The `auth` middleware: resolves the caller's claims from the Authorization header
    before a protected handler runs. */
module Guard {
  import opened Wrappers
  import opened JsText
  import opened Tokens
  import opened Domain

  const BearerPrefix := "Bearer "

  /** `req.header('Authorization')?.replace('Bearer ', '')`: the first occurrence of
      `"Bearer "` is removed wherever it stands; an absent header stays absent. */
  function ExtractToken(header: Option<string>): (token: Option<string>)
    ensures header.None? <==> token.None?
    ensures header.Some? && (forall j: nat :: !OccursAt(header.value, BearerPrefix, j)) ==> token == header
    ensures forall i: nat ::
              header.Some? && OccursAt(header.value, BearerPrefix, i)
              && (forall j: nat :: j < i ==> !OccursAt(header.value, BearerPrefix, j))
              ==> token == Some(header.value[..i] + header.value[i + |BearerPrefix|..])
  {
    match header
    case None => None
    case Some(h) => Some(RemoveFirst(h, BearerPrefix))
  }

  /** The guard's verdict: the request proceeds with the decoded claims attached
      (`req.user = decoded; next()`), or it is answered with 401. */
  datatype Verdict = Admit(claims: Claims) | Deny(reply: Reply)

  /** Every rejection is the same reply. */
  const Unauthenticated := MessageReply(401, PleaseLogIn)

  function Authenticate(cfg: Config, header: Option<string>): (v: Verdict)
    ensures v.Deny? ==> v.reply == Unauthenticated
    ensures header.None? ==> v.Deny?
    ensures v.Admit? <==> ExtractToken(header).Some? && ExtractToken(header).value != ""
                          && Decode(cfg, ExtractToken(header).value).Some?
    ensures v.Admit? ==> Decode(cfg, ExtractToken(header).value) == Some(v.claims)
  {
    match ExtractToken(header)
    case None => Deny(Unauthenticated)
    case Some(token) =>
      if token == "" then Deny(Unauthenticated)
      else match Decode(cfg, token)
        case None => Deny(Unauthenticated)
        case Some(claims) => Admit(claims)
  }

  /** The documented form `Bearer <token>` yields exactly `<token>`. */
  lemma BearerHeader(token: string)
    ensures ExtractToken(Some(BearerPrefix + token)) == Some(token)
  {
    RemoveLeading(BearerPrefix, token);
  }

  /** A header that is just `"Bearer "` leaves an empty token, which is refused. */
  lemma BareBearerRejected(cfg: Config)
    ensures Authenticate(cfg, Some(BearerPrefix)) == Deny(Unauthenticated)
  {
    BearerHeader("");
    assert BearerPrefix + "" == BearerPrefix;
  }

  /** The prefix is removed even when it is not at the start of the header. */
  lemma PrefixRemovedAnywhere()
    ensures ExtractToken(Some("xBearer abc")) == Some("xabc")
  {
    var h := "xBearer abc";
    assert h[0..7][0] == 'x';
    assert !OccursAt(h, BearerPrefix, 0);
    assert OccursAt(h, BearerPrefix, 1);
    assert h[..1] + h[8..] == "xabc";
  }

  /** A token the backend issued, presented as `Bearer <token>`, is admitted with the
      claims it was issued for. */
  lemma IssuedTokenAdmitted(cfg: Config, claims: Claims)
    requires Sound(cfg.crypto)
    ensures Authenticate(cfg, Some(BearerPrefix + Issue(cfg, claims))) == Admit(claims)
  {
    IssuedTokenDecodes(cfg, claims);
    BearerHeader(Issue(cfg, claims));
  }
}

=== FILE: ids.dfy ===
/** Document identities. */
module Ids {

  /** A MongoDB ObjectId in its string form. The model treats it as opaque; the empty
      string stands for an identity that is absent (a token payload without `_id`). */
  type Id = string

  /** JavaScript truthiness of an id string: `!id` holds exactly for the empty string. */
  predicate Present(id: Id) {
    id != ""
  }
}

=== FILE: js_text.dfy ===
/** The JavaScript string primitives the backend relies on: `String.prototype.trim`
    (applied by Mongoose's `trim: true`), `indexOf` and `replace` with a string pattern. */
module JsText {
  import opened Wrappers

  /** ECMAScript WhiteSpace and LineTerminator code points: exactly what `trim` strips. */
  predicate IsWhitespace(c: char) {
    || c == '\t' || c == '\n' || c == '\U{000B}' || c == '\U{000C}' || c == '\r' || c == ' '
    || c == '\U{00A0}' || c == '\U{1680}' || ('\U{2000}' <= c <= '\U{200A}')
    || c == '\U{2028}' || c == '\U{2029}' || c == '\U{202F}' || c == '\U{205F}'
    || c == '\U{3000}' || c == '\U{FEFF}'
  }

  predicate AllWhitespace(s: string) {
    forall i :: 0 <= i < |s| ==> IsWhitespace(s[i])
  }

  /** Leading whitespace removed: the result is the longest suffix not starting with whitespace. */
  function TrimStart(s: string): (r: string)
    ensures |r| <= |s| && r == s[|s| - |r|..]
    ensures forall i :: 0 <= i < |s| - |r| ==> IsWhitespace(s[i])
    ensures r == [] || !IsWhitespace(r[0])
  {
    if |s| > 0 && IsWhitespace(s[0]) then
      var r := TrimStart(s[1..]);
      assert forall i :: 1 <= i < |s| - |r| ==> s[i] == s[1..][i - 1];
      r
    else s
  }

  /** Trailing whitespace removed: the result is the longest prefix not ending in whitespace. */
  function TrimEnd(s: string): (r: string)
    ensures |r| <= |s| && r == s[..|r|]
    ensures forall i :: |r| <= i < |s| ==> IsWhitespace(s[i])
    ensures r == [] || !IsWhitespace(r[|r| - 1])
  {
    if |s| > 0 && IsWhitespace(s[|s| - 1]) then
      var r := TrimEnd(s[..|s| - 1]);
      assert forall i :: |r| <= i < |s| - 1 ==> s[i] == s[..|s| - 1][i];
      r
    else s
  }

  /** Neither starts nor ends with whitespace. */
  predicate Trimmed(r: string) {
    r == [] || (!IsWhitespace(r[0]) && !IsWhitespace(r[|r| - 1]))
  }

  /** `s.trim()`: `s` with a whitespace prefix and a whitespace suffix cut off. The result
      is empty exactly when `s` is all whitespace, and otherwise starts and ends with a
      non-whitespace character. */
  function Trim(s: string): (r: string)
    ensures exists i, j :: 0 <= i <= j <= |s| && r == s[i..j] && AllWhitespace(s[..i]) && AllWhitespace(s[j..])
    ensures r == [] <==> AllWhitespace(s)
    ensures Trimmed(r)
  {
    TrimShape(s);
    TrimCuts(s);
    TrimEnd(TrimStart(s))
  }

  lemma TrimCuts(s: string)
    ensures var r := TrimEnd(TrimStart(s));
            exists i, j :: 0 <= i <= j <= |s| && r == s[i..j] && AllWhitespace(s[..i]) && AllWhitespace(s[j..])
  {
    var a := TrimStart(s);
    var r := TrimEnd(a);
    TrimSlice(s, a, r);
    var i, j := |s| - |a|, |s| - |a| + |r|;
    assert 0 <= i <= j <= |s| && r == s[i..j] && AllWhitespace(s[..i]) && AllWhitespace(s[j..]);
  }

  lemma TrimShape(s: string)
    ensures TrimEnd(TrimStart(s)) == [] <==> AllWhitespace(s)
    ensures Trimmed(TrimEnd(TrimStart(s)))
  {
    var a := TrimStart(s);
    var r := TrimEnd(a);
    if r == [] {
      assert a == [];
    } else {
      assert r[0] == a[0];
    }
  }

  /** Cutting a whitespace prefix `s[..i]` and then a whitespace suffix from the rest is
      cutting the slice `s[i..j]` out of `s`. */
  lemma TrimSlice(s: string, a: string, r: string)
    requires |a| <= |s| && a == s[|s| - |a|..] && forall k :: 0 <= k < |s| - |a| ==> IsWhitespace(s[k])
    requires |r| <= |a| && r == a[..|r|] && forall k :: |r| <= k < |a| ==> IsWhitespace(a[k])
    ensures var i, j := |s| - |a|, |s| - |a| + |r|;
            0 <= i <= j <= |s| && r == s[i..j] && AllWhitespace(s[..i]) && AllWhitespace(s[j..])
  {
    var i, j := |s| - |a|, |s| - |a| + |r|;
    assert r == s[i..j];
    WhitespacePrefix(s, i);
    forall k | j <= k < |s|
      ensures IsWhitespace(s[k])
    {
      assert s[k] == a[k - i];
    }
    WhitespaceSuffix(s, j);
  }

  lemma WhitespacePrefix(s: string, i: nat)
    requires i <= |s| && forall k :: 0 <= k < i ==> IsWhitespace(s[k])
    ensures AllWhitespace(s[..i])
  {
    assert forall k :: 0 <= k < i ==> s[..i][k] == s[k];
  }

  lemma WhitespaceSuffix(s: string, j: nat)
    requires j <= |s| && forall k :: j <= k < |s| ==> IsWhitespace(s[k])
    ensures AllWhitespace(s[j..])
  {
    assert forall k :: 0 <= k < |s| - j ==> s[j..][k] == s[j + k];
  }

  /** Trimming is idempotent: a value Mongoose stored trimmed is unchanged by a second save. */
  lemma TrimIdempotent(s: string)
    ensures Trim(Trim(s)) == Trim(s)
  {
    var r := Trim(s);
    if r != [] {
      assert TrimStart(r) == r;
      assert TrimEnd(r) == r;
    }
  }

  /** `pat` occurs in `s` starting at index `i`. */
  predicate OccursAt(s: string, pat: string, i: nat) {
    i + |pat| <= |s| && s[i..i + |pat|] == pat
  }

  /** `s.indexOf(pat, from)`: the first occurrence at or after `from`, if any. */
  function IndexOfFrom(s: string, pat: string, from: nat): (r: Option<nat>)
    ensures r.Some? ==> from <= r.value && OccursAt(s, pat, r.value)
    ensures r.Some? ==> forall j: nat :: from <= j < r.value ==> !OccursAt(s, pat, j)
    ensures r.None? ==> forall j: nat :: from <= j ==> !OccursAt(s, pat, j)
    decreases |s| - from
  {
    if |s| < from + |pat| then None
    else if OccursAt(s, pat, from) then Some(from)
    else IndexOfFrom(s, pat, from + 1)
  }

  function IndexOf(s: string, pat: string): (r: Option<nat>)
    ensures r.Some? ==> OccursAt(s, pat, r.value)
    ensures r.Some? ==> forall j: nat :: j < r.value ==> !OccursAt(s, pat, j)
    ensures r.None? ==> forall j: nat :: !OccursAt(s, pat, j)
  {
    IndexOfFrom(s, pat, 0)
  }

  /** `s.replace(pat, '')`: with a string pattern JavaScript replaces only the FIRST
      occurrence, wherever it is; a string without `pat` comes back whole. */
  function RemoveFirst(s: string, pat: string): (r: string)
    ensures (forall j: nat :: !OccursAt(s, pat, j)) ==> r == s
    ensures forall i: nat :: OccursAt(s, pat, i) && (forall j: nat :: j < i ==> !OccursAt(s, pat, j))
                            ==> r == s[..i] + s[i + |pat|..]
  {
    match IndexOf(s, pat)
    case None => s
    case Some(i) =>
      FirstOccurrenceUnique(s, pat, i);
      s[..i] + s[i + |pat|..]
  }

  /** There is only one first occurrence. */
  lemma FirstOccurrenceUnique(s: string, pat: string, i: nat)
    requires OccursAt(s, pat, i) && forall j: nat :: j < i ==> !OccursAt(s, pat, j)
    ensures forall k: nat :: OccursAt(s, pat, k) && (forall j: nat :: j < k ==> !OccursAt(s, pat, j)) ==> k == i
  {
  }

  /** A leading occurrence is the first one, so it is the one removed. */
  lemma RemoveLeading(pat: string, rest: string)
    ensures RemoveFirst(pat + rest, pat) == rest
  {
    var s := pat + rest;
    assert s[0..|pat|] == pat;
    assert OccursAt(s, pat, 0);
    assert s[|pat|..] == rest;
  }
}

=== FILE: mongo_arrays.dfy ===
/** The array update operators the routes use on id arrays: MongoDB's `$pull` and
    `$addToSet`, and the in-memory `filter`/`push` pair of the like toggle. */
module MongoArrays {
  import opened Ids

  /** Every id occurs at most once. */
  predicate NoDuplicates(xs: seq<Id>) {
    forall y :: y in xs ==> multiset(xs)[y] == 1
  }

  /** `$pull` (and `filter(v => !v.equals(x))`): every occurrence of `x` is removed,
      every other element stays. */
  function Pull(xs: seq<Id>, x: Id): (r: seq<Id>)
    ensures forall y :: y in r <==> y in xs && y != x
    ensures multiset(r) == multiset(xs)[x := 0]
    ensures |r| <= |xs|
    ensures x !in xs ==> r == xs
    ensures NoDuplicates(xs) ==> NoDuplicates(r)
  {
    if xs == [] then []
    else
      assert xs == [xs[0]] + xs[1..];
      if xs[0] == x then Pull(xs[1..], x)
      else
        [xs[0]] + Pull(xs[1..], x)
  }

  /** `$addToSet`: `x` is appended unless it is already present; the existing
      elements keep their order. */
  function AddToSet(xs: seq<Id>, x: Id): (r: seq<Id>)
    ensures forall y :: y in r <==> y in xs || y == x
    ensures x in xs ==> r == xs
    ensures x !in xs ==> r == xs + [x]
    ensures xs <= r && |r| <= |xs| + 1
    ensures NoDuplicates(xs) ==> NoDuplicates(r)
  {
    if x in xs then xs else xs + [x]
  }

  /** `$pull` works element by element: the ids it keeps stay in their original order. */
  lemma {:induction false} PullConcat(xs: seq<Id>, ys: seq<Id>, x: Id)
    ensures Pull(xs + ys, x) == Pull(xs, x) + Pull(ys, x)
  {
    if xs == [] {
      assert [] + ys == ys;
    } else {
      assert (xs + ys)[1..] == xs[1..] + ys;
      PullConcat(xs[1..], ys, x);
    }
  }

  /** Pulling an element that was just appended to a sequence without it gives the
      sequence back exactly. */
  lemma {:induction false} PullAppended(xs: seq<Id>, x: Id)
    requires x !in xs
    ensures Pull(xs + [x], x) == xs
  {
    if xs == [] {
      assert [] + [x] == [x];
    } else {
      assert (xs + [x])[1..] == xs[1..] + [x];
      PullAppended(xs[1..], x);
    }
  }
}

=== FILE: post_routes.dfy ===
/** The `/posts` routes: create, list newest first, like toggle, add comment and
    author-only delete. */
module PostRoutes {
  import opened Wrappers
  import opened Ids
  import opened MongoArrays
  import opened JsText
  import opened PostSchema
  import opened Domain

  /** POST /posts — the caller becomes the author; a missing or blank content fails the
      schema's validation and ends in the catch-all 500. `newId` is the ObjectId the
      database assigns and `now` the save time. What a created post holds is stated by
      `CreatedPost`. */
  function CreatePost(s: Store, callerId: Id, content: Option<string>, image: Option<string>, newId: Id, now: Time): (out: Outcome)
    requires newId !in s.posts
    ensures !Present(callerId) ==> out == Reject(s, 401, NotAuthorized)
    ensures Present(callerId) && (content.None? || AllWhitespace(content.value)) ==> out == Reject(s, 500, CreatePostFailed)
    ensures out.reply.status == 201 <==> Present(callerId) && content.Some? && !AllWhitespace(content.value)
    ensures out.reply.status != 201 ==> out.store == s
    ensures out.store.users == s.users
    ensures out.reply.status == 201 ==>
              && out.store.posts.Keys == s.posts.Keys + {newId}
              && (forall k :: k in s.posts ==> out.store.posts[k] == s.posts[k])
              && out.reply.body == PostDoc(newId, out.store.posts[newId])
  {
    if !Present(callerId) then Reject(s, 401, NotAuthorized)
    else
      var cast := CastPost(PostInput(content, image, Some(callerId)), now);
      if cast.None? then Reject(s, 500, CreatePostFailed)
      else
        Outcome(Reply(201, PostDoc(newId, cast.value)), Insert(s, newId, cast.value))
  }

  /** `new Post(...).save()` under a fresh id: one document added, nothing else touched. */
  function Insert(s: Store, newId: Id, p: Post): (t: Store)
    requires newId !in s.posts
    ensures t.users == s.users && t.posts.Keys == s.posts.Keys + {newId} && t.posts[newId] == p
    ensures forall k :: k in s.posts ==> t.posts[k] == s.posts[k]
  {
    s.(posts := s.posts[newId := p])
  }

  /** A created post is authored by the caller, holds the trimmed content and the given
      image, starts with no likes and no comments, is stamped with the save time, and
      passes the schema. */
  lemma CreatedPost(s: Store, callerId: Id, content: Option<string>, image: Option<string>, newId: Id, now: Time)
    requires newId !in s.posts
    requires Present(callerId) && content.Some? && !AllWhitespace(content.value)
    ensures var p := CreatePost(s, callerId, content, image, newId, now).store.posts[newId];
            && p.author == callerId && p.content == Trim(content.value) && p.image == image
            && p.likes == [] && p.comments == [] && p.createdAt == now && p.updatedAt == now
            && ValidPost(p)
  {
    var cast := CastPost(PostInput(content, image, Some(callerId)), now);
    assert CreatePost(s, callerId, content, image, newId, now).store.posts[newId] == cast.value;
  }

  /** The in-memory like toggle: `filter` out every occurrence of a present id, `push`
      an absent one. */
  function ToggleLike(likes: seq<Id>, u: Id): (r: seq<Id>)
    ensures u in likes <==> u !in r
    ensures forall y :: y != u ==> (y in r <==> y in likes)
    ensures u !in likes ==> r == likes + [u]
    ensures u in likes ==> r == Pull(likes, u) && multiset(r) == multiset(likes)[u := 0]
    ensures NoDuplicates(likes) ==> NoDuplicates(r)
  {
    if u in likes then Pull(likes, u) else likes + [u]
  }

  /** Liking twice restores the likes array identically when the user had not liked the
      post (the converse does not hold), and as a set of ids always. */
  lemma LikeTwice(likes: seq<Id>, u: Id)
    ensures u !in likes ==> ToggleLike(ToggleLike(likes, u), u) == likes
    ensures forall y :: y in ToggleLike(ToggleLike(likes, u), u) <==> y in likes
  {
    if u !in likes {
      PullAppended(likes, u);
    }
  }

  /** A concrete case where the second toggle does not give the array back: a user
      listed twice is filtered out entirely and then pushed once. */
  lemma LikeTwiceCollapsesDuplicates()
    ensures ToggleLike(ToggleLike(["a", "a"], "a"), "a") == ["a"]
  {
    assert Pull(["a", "a"], "a") == [];
  }

  /** POST /posts/:id/like. */
  function LikePost(s: Store, callerId: Id, postId: Id, now: Time): (out: Outcome)
    ensures !Present(callerId) ==> out == Reject(s, 401, NotAuthorized)
    ensures Present(callerId) && postId !in s.posts ==> out == Reject(s, 404, PostNotFound)
    ensures out.reply.status == 200 <==> Present(callerId) && postId in s.posts
    ensures out.reply.status != 200 ==> out.store == s
    ensures out.store.users == s.users && out.store.posts.Keys == s.posts.Keys
    ensures forall k :: k in s.posts && k != postId ==> out.store.posts[k] == s.posts[k]
    ensures out.reply.status == 200 ==>
              var p, p' := s.posts[postId], out.store.posts[postId];
              && out.reply.body == PostDoc(postId, p')
              && p' == p.(likes := p'.likes, updatedAt := now)
              && p'.likes == ToggleLike(p.likes, callerId)
              && (callerId in p.likes <==> callerId !in p'.likes)
              && (forall y :: y != callerId ==> (y in p'.likes <==> y in p.likes))
              && (NoDuplicates(p.likes) ==> NoDuplicates(p'.likes))
  {
    if !Present(callerId) then Reject(s, 401, NotAuthorized)
    else if postId !in s.posts then Reject(s, 404, PostNotFound)
    else
      var p := s.posts[postId];
      var p' := p.(likes := ToggleLike(p.likes, callerId), updatedAt := now);
      Outcome(Reply(200, PostDoc(postId, p')), s.(posts := s.posts[postId := p']))
  }

  /** POST /posts/:id/comments — appends one comment by the caller, stamped `now`.
      A missing or blank content fails validation on save (500). */
  function AddComment(s: Store, callerId: Id, postId: Id, content: Option<string>, now: Time): (out: Outcome)
    ensures !Present(callerId) ==> out == Reject(s, 401, NotAuthorized)
    ensures Present(callerId) && postId !in s.posts ==> out == Reject(s, 404, PostNotFound)
    ensures (Present(callerId) && postId in s.posts && (content.None? || AllWhitespace(content.value))) ==>
              out == Reject(s, 500, AddCommentFailed)
    ensures out.reply.status == 200 <==>
              Present(callerId) && postId in s.posts && content.Some? && !AllWhitespace(content.value)
    ensures out.reply.status != 200 ==> out.store == s
    ensures out.store.users == s.users && out.store.posts.Keys == s.posts.Keys
    ensures forall k :: k in s.posts && k != postId ==> out.store.posts[k] == s.posts[k]
    ensures out.reply.status == 200 ==>
              var p, p' := s.posts[postId], out.store.posts[postId];
              && out.reply.body == PostDoc(postId, p')
              && p' == p.(comments := p'.comments, updatedAt := now)
              && |p'.comments| == |p.comments| + 1
              && p'.comments[..|p.comments|] == p.comments
              && var c := p'.comments[|p.comments|];
                 c.author == callerId && c.content == Trim(content.value) && c.createdAt == now
                 && ValidComment(c)
  {
    if !Present(callerId) then Reject(s, 401, NotAuthorized)
    else if postId !in s.posts then Reject(s, 404, PostNotFound)
    else match CastComment(CommentInput(content, Some(callerId), Some(now)), now)
      case None => Reject(s, 500, AddCommentFailed)
      case Some(c) =>
        var p := s.posts[postId];
        var p' := p.(comments := p.comments + [c], updatedAt := now);
        assert p'.comments[..|p.comments|] == p.comments;
        Outcome(Reply(200, PostDoc(postId, p')), s.(posts := s.posts[postId := p']))
  }

  /** DELETE /posts/:id — only the author may delete; the author's delete removes that
      post and nothing else. */
  function DeletePost(s: Store, callerId: Id, postId: Id): (out: Outcome)
    ensures !Present(callerId) ==> out == Reject(s, 401, NotAuthorized)
    ensures Present(callerId) && postId !in s.posts ==> out == Reject(s, 404, PostNotFound)
    ensures (Present(callerId) && postId in s.posts && s.posts[postId].author != callerId) ==>
              out == Reject(s, 403, NotPostOwner)
    ensures out.reply.status == 200 <==>
              Present(callerId) && postId in s.posts && s.posts[postId].author == callerId
    ensures out.reply.status != 200 ==> out.store == s
    ensures out.reply.status == 200 ==>
              && out.reply == MessageReply(200, PostDeleted)
              && out.store.users == s.users
              && out.store.posts.Keys == s.posts.Keys - {postId}
              && forall k :: k in out.store.posts ==> out.store.posts[k] == s.posts[k]
  {
    if !Present(callerId) then Reject(s, 401, NotAuthorized)
    else if postId !in s.posts then Reject(s, 404, PostNotFound)
    else if s.posts[postId].author != callerId then Reject(s, 403, NotPostOwner)
    else Outcome(MessageReply(200, PostDeleted), s.(posts := s.posts - {postId}))
  }

  // ---- Listing ----

  /** Newest first: `createdAt` never increases along the feed. */
  predicate NewestFirst(feed: seq<Entry>) {
    forall i, j :: 0 <= i < j < |feed| ==> feed[j].post.createdAt <= feed[i].post.createdAt
  }

  /** Each post appears once. */
  predicate DistinctIds(feed: seq<Entry>) {
    forall i, j :: 0 <= i < j < |feed| ==> feed[i].id != feed[j].id
  }

  function IdsOf(feed: seq<Entry>): set<Id> {
    set i | 0 <= i < |feed| :: feed[i].id
  }

  /** A non-empty set of stored posts has a newest one. */
  lemma {:induction false} NewestExists(posts: map<Id, Post>, keys: set<Id>)
    requires keys != {} && keys <= posts.Keys
    ensures exists k :: k in keys && forall j :: j in keys ==> posts[j].createdAt <= posts[k].createdAt
    decreases keys
  {
    var x :| x in keys;
    var rest := keys - {x};
    if rest != {} {
      NewestExists(posts, rest);
      var m :| m in rest && forall j :: j in rest ==> posts[j].createdAt <= posts[m].createdAt;
      if posts[x].createdAt <= posts[m].createdAt {
        assert forall j :: j in keys ==> posts[j].createdAt <= posts[m].createdAt;
      } else {
        assert forall j :: j in keys ==> posts[j].createdAt <= posts[x].createdAt;
      }
    } else {
      assert keys == {x};
    }
  }

  /** The listing built so far: `feed` holds the posts already taken, newest first, each
      with its id and none twice, and every post still in `rest` is no newer than any of
      them. */
  predicate Partial(posts: map<Id, Post>, feed: seq<Entry>, rest: set<Id>) {
    && rest <= posts.Keys
    && IdsOf(feed) + rest == posts.Keys
    && IdsOf(feed) !! rest
    && (forall i :: 0 <= i < |feed| ==> feed[i].id in posts && feed[i].post == posts[feed[i].id])
    && NewestFirst(feed)
    && DistinctIds(feed)
    && (forall i, k :: 0 <= i < |feed| && k in rest ==> posts[k].createdAt <= feed[i].post.createdAt)
  }

  lemma IdsOfAppend(feed: seq<Entry>, e: Entry)
    ensures IdsOf(feed + [e]) == IdsOf(feed) + {e.id}
  {
    var f := feed + [e];
    forall id | id in IdsOf(f) ensures id in IdsOf(feed) + {e.id} {
      var i :| 0 <= i < |f| && f[i].id == id;
      if i < |feed| { assert feed[i].id == id; }
    }
    forall id | id in IdsOf(feed) ensures id in IdsOf(f) {
      var i :| 0 <= i < |feed| && feed[i].id == id;
      assert f[i].id == id;
    }
    assert f[|feed|].id == e.id;
  }

  /** Taking a newest remaining post extends the listing correctly. */
  lemma TakeNewest(posts: map<Id, Post>, feed: seq<Entry>, rest: set<Id>, k: Id)
    requires Partial(posts, feed, rest)
    requires k in rest && forall j :: j in rest ==> posts[j].createdAt <= posts[k].createdAt
    ensures Partial(posts, feed + [Entry(k, posts[k])], rest - {k})
  {
    var e := Entry(k, posts[k]);
    var f := feed + [e];
    IdsOfAppend(feed, e);
    var rest' := rest - {k};
    forall i | 0 <= i < |feed| ensures feed[i].id != k {
      assert feed[i].id in IdsOf(feed);
    }
    assert IdsOf(f) + rest' == posts.Keys;
    assert IdsOf(f) !! rest';
    forall i | 0 <= i < |f| ensures f[i].id in posts && f[i].post == posts[f[i].id] {
      if i < |feed| { assert f[i] == feed[i]; }
    }
    forall i, j | 0 <= i < j < |f| ensures f[j].post.createdAt <= f[i].post.createdAt && f[i].id != f[j].id {
      assert f[i] == feed[i];
      if j < |feed| { assert f[j] == feed[j]; }
    }
    forall i, k' | 0 <= i < |f| && k' in rest' ensures posts[k'].createdAt <= f[i].post.createdAt {
      if i < |feed| { assert f[i] == feed[i]; }
    }
  }

  /** GET /posts — every stored post exactly once, with its id, newest first. Posts
      with equal `createdAt` may come in any order, as with the database's sort. */
  method ListPosts(s: Store) returns (reply: Reply)
    ensures reply.status == 200 && reply.body.Feed?
    ensures NewestFirst(reply.body.entries)
    ensures DistinctIds(reply.body.entries)
    ensures IdsOf(reply.body.entries) == s.posts.Keys
    ensures forall i :: 0 <= i < |reply.body.entries| ==>
              reply.body.entries[i].id in s.posts && reply.body.entries[i].post == s.posts[reply.body.entries[i].id]
  {
    var rest := s.posts.Keys;
    var feed: seq<Entry> := [];
    while rest != {}
      invariant Partial(s.posts, feed, rest)
      decreases rest
    {
      NewestExists(s.posts, rest);
      var k :| k in rest && forall j :: j in rest ==> s.posts[j].createdAt <= s.posts[k].createdAt;
      TakeNewest(s.posts, feed, rest, k);
      feed := feed + [Entry(k, s.posts[k])];
      rest := rest - {k};
    }
    reply := Reply(200, Feed(feed));
  }
}

=== FILE: post_schema.dfy ===
/** The Post and Comment documents and what their Mongoose schemas make of the fields a
    route supplies: `trim: true` trims the string when it is assigned, `required: true`
    rejects a missing value or an empty string, `default: Date.now` fills an absent date,
    and `timestamps: true` stamps `createdAt`/`updatedAt`. */
module PostSchema {
  import opened Wrappers
  import opened Ids
  import opened JsText

  /** Timestamps are abstract instants (milliseconds since the epoch). */
  type Time = nat

  /** An embedded comment. Mongoose gives each one an `_id`; no route uses it, so the
      model leaves it out. */
  datatype Comment = Comment(content: string, author: Id, createdAt: Time)

  /** A post. `likes` is a plain array of user ids: the schema puts no uniqueness
      constraint on it. `comments` is ordered by insertion. */
  datatype Post = Post(
    content: string,
    image: Option<string>,
    author: Id,
    likes: seq<Id>,
    comments: seq<Comment>,
    createdAt: Time,
    updatedAt: Time)

  /** What a route hands to the comment schema: any field may be missing. */
  datatype CommentInput = CommentInput(content: Option<string>, author: Option<Id>, createdAt: Option<Time>)

  /** What a route hands to the post schema. */
  datatype PostInput = PostInput(content: Option<string>, image: Option<string>, author: Option<Id>)

  /** A required, trimmed string as stored: not empty, and neither starting nor ending
      with whitespace (so trimming it again changes nothing, see `StoredTextIsTrimmed`). */
  predicate StoredText(s: string) {
    s != "" && Trimmed(s)
  }

  predicate ValidComment(c: Comment) {
    StoredText(c.content) && Present(c.author)
  }

  /** The schema constraints on a stored post. Nothing is demanded of `likes` or of
      `image`. */
  predicate ValidPost(p: Post) {
    && StoredText(p.content)
    && Present(p.author)
    && (forall i :: 0 <= i < |p.comments| ==> ValidComment(p.comments[i]))
  }

  /** A required string field: the trimmed value, or None when validation fails. */
  function RequiredText(v: Option<string>): (r: Option<string>)
    ensures r.Some? <==> v.Some? && !AllWhitespace(v.value)
    ensures r.Some? ==> StoredText(r.value) && r.value == Trim(v.value)
  {
    match v
    case None => None
    case Some(s) =>
      var t := Trim(s);
      if t == "" then None else Some(t)
  }

  /** A stored required string is a fixed point of trimming. */
  lemma StoredTextIsTrimmed(s: string)
    requires StoredText(s)
    ensures Trim(s) == s
  {
    assert TrimStart(s) == s;
    assert TrimEnd(s) == s;
  }

  /** Casting and validating a comment subdocument at `now`. */
  function CastComment(input: CommentInput, now: Time): (r: Option<Comment>)
    ensures r.Some? <==> input.content.Some? && !AllWhitespace(input.content.value)
                         && input.author.Some? && Present(input.author.value)
    ensures r.Some? ==> ValidComment(r.value)
    ensures r.Some? ==> r.value.content == Trim(input.content.value) && r.value.author == input.author.value
    ensures r.Some? ==> r.value.createdAt == input.createdAt.GetOr(now)
  {
    match RequiredText(input.content)
    case None => None
    case Some(text) =>
      if input.author.None? || !Present(input.author.value) then None
      else Some(Comment(text, input.author.value, input.createdAt.GetOr(now)))
  }

  /** Casting and validating a new post saved at `now`: no likes, no comments, both
      timestamps `now`. */
  function CastPost(input: PostInput, now: Time): (r: Option<Post>)
    ensures r.Some? <==> input.content.Some? && !AllWhitespace(input.content.value)
                         && input.author.Some? && Present(input.author.value)
    ensures r.Some? ==> ValidPost(r.value)
    ensures r.Some? ==> r.value.content == Trim(input.content.value)
    ensures r.Some? ==> r.value.author == input.author.value && r.value.image == input.image
    ensures r.Some? ==> r.value.likes == [] && r.value.comments == []
    ensures r.Some? ==> r.value.createdAt == now && r.value.updatedAt == now
  {
    match RequiredText(input.content)
    case None => None
    case Some(text) =>
      if input.author.None? || !Present(input.author.value) then None
      else Some(Post(text, input.image, input.author.value, [], [], now, now))
  }

  /** The image is optional: whether a post validates does not depend on it. */
  lemma ImageOptional(input: PostInput, now: Time, image: Option<string>)
    ensures CastPost(input, now).Some? <==> CastPost(input.(image := image), now).Some?
  {
  }

  /** The schema accepts any likes array, duplicates included: uniqueness of likes can
      only come from the route logic. */
  lemma LikesUnconstrained(p: Post, likes: seq<Id>)
    requires ValidPost(p)
    ensures ValidPost(p.(likes := likes))
  {
  }

  /** Appending a valid comment keeps a post valid. */
  lemma AppendCommentValid(p: Post, c: Comment)
    requires ValidPost(p) && ValidComment(c)
    ensures ValidPost(p.(comments := p.comments + [c]))
  {
    var cs := p.comments + [c];
    forall i | 0 <= i < |cs| ensures ValidComment(cs[i]) {
      if i < |p.comments| {
        assert cs[i] == p.comments[i];
      }
    }
  }
}

=== FILE: tokens.dfy ===
/** Password hashing (bcryptjs) and token signing (jsonwebtoken), kept abstract: the
    model never looks inside them and relies only on the `Sound` promises below. */
module Tokens {
  import opened Wrappers
  import opened Ids

  /** The payload every issued token carries and the guard attaches to the request. */
  datatype Claims = Claims(id: Id, email: string, username: string)

  /** The random salt bcrypt draws for each hash. */
  type Salt = nat

  /** bcrypt's cost factor for registration hashes. */
  const HashRounds: nat := 10

  /** Uninterpreted cryptographic primitives:
      `hash(password, rounds, salt)`, `compare(password, stored)`,
      `sign(claims, secret)` and `verify(token, secret)` (None when the signature or the
      format is wrong). */
  datatype Crypto = Crypto(
    hash: (string, nat, Salt) -> string,
    compare: (string, string) -> bool,
    sign: (Claims, string) -> string,
    verify: (string, string) -> Option<Claims>)

  /** What the model assumes of the libraries: a password matches its own hash,
      a signed token is a non-empty string, and it verifies to the claims it was signed
      with under the same secret. */
  ghost predicate Sound(c: Crypto) {
    && (forall p, n, salt :: c.compare(p, c.hash(p, n, salt)))
    && (forall cl, key :: c.sign(cl, key) != "")
    && (forall cl, key :: c.verify(c.sign(cl, key), key) == Some(cl))
  }

  /** The fallback used when the JWT_SECRET environment variable is unset or empty. */
  const DefaultSecret := "your-secret-key"

  /** Process configuration read once at startup. */
  datatype Config = Config(crypto: Crypto, jwtSecret: Option<string>)

  /** `process.env.JWT_SECRET || 'your-secret-key'`: the empty string is falsy. */
  function SigningSecret(env: Option<string>): (key: string)
    ensures key != ""
    ensures env.Some? && env.value != "" ==> key == env.value
    ensures env.None? || env.value == "" ==> key == DefaultSecret
  {
    if env.Some? && env.value != "" then env.value else DefaultSecret
  }

  /** `jwt.sign(claims, secret)`. */
  function Issue(cfg: Config, claims: Claims): string {
    cfg.crypto.sign(claims, SigningSecret(cfg.jwtSecret))
  }

  /** `jwt.verify(token, secret)`; None stands for the thrown error. */
  function Decode(cfg: Config, token: string): Option<Claims> {
    cfg.crypto.verify(token, SigningSecret(cfg.jwtSecret))
  }

  /** Register and login sign and the guard verifies with the same secret, so every token
      the backend issues is accepted by the backend and yields the claims it was issued for. */
  lemma IssuedTokenDecodes(cfg: Config, claims: Claims)
    requires Sound(cfg.crypto)
    ensures Issue(cfg, claims) != ""
    ensures Decode(cfg, Issue(cfg, claims)) == Some(claims)
  {
  }
}

=== FILE: user_routes.dfy ===
/** The `/users` routes: profile lookup, profile update and the follow toggle, together
    with the social-graph invariants the toggle maintains. */
module UserRoutes {
  import opened Wrappers
  import opened Ids
  import opened MongoArrays
  import opened Domain

  /** GET /users/:id — the profile without the password, or 404. */
  function GetUser(s: Store, id: Id): (r: Reply)
    ensures r.status == 404 <==> id !in s.users
    ensures id !in s.users ==> r == MessageReply(404, UserNotFound)
    ensures id in s.users ==> r.status == 200 && r.body.UserDoc? && r.body.profile.id == id
    ensures id in s.users ==>
              && r.body.profile.email == s.users[id].email
              && r.body.profile.username == s.users[id].username
              && r.body.profile.avatar == s.users[id].avatar && r.body.profile.bio == s.users[id].bio
              && r.body.profile.following == s.users[id].following
              && r.body.profile.followers == s.users[id].followers
  {
    if id !in s.users then MessageReply(404, UserNotFound)
    else Reply(200, UserDoc(ProfileOf(id, s.users[id])))
  }

  /** `User.findOne({ username: name, _id: { $ne: self } })` finds a document. */
  predicate UsernameHeldByOther(users: map<Id, User>, name: string, self: Id) {
    exists k :: k in users && k != self && users[k].username == name
  }

  /** `$set` with the fields the request supplied; an absent field keeps its value. */
  function SetProfileFields(u: User, username: Option<string>, avatar: Option<string>, bio: Option<string>): User {
    u.(username := username.GetOr(u.username),
       avatar := if avatar.Some? then avatar else u.avatar,
       bio := if bio.Some? then bio else u.bio)
  }

  /** PUT /users/profile. A non-empty username held by a DIFFERENT user is refused with
      400; an absent or empty username skips the check, and keeping one's own name
      passes it. If the caller's record is gone, `findByIdAndUpdate` yields null. */
  function UpdateProfile(s: Store, callerId: Id, username: Option<string>, avatar: Option<string>, bio: Option<string>): (out: Outcome)
    ensures out.reply.status == 400 <==>
              username.Some? && username.value != "" && UsernameHeldByOther(s.users, username.value, callerId)
    ensures out.reply.status == 400 ==> out == Reject(s, 400, UsernameTaken)
    ensures out.reply.status != 400 ==> out.reply.status == 200
    ensures callerId !in s.users && out.reply.status == 200 ==> out == Outcome(Reply(200, Null), s)
    ensures out.store.posts == s.posts && out.store.users.Keys == s.users.Keys
    ensures forall k :: k in s.users && k != callerId ==> out.store.users[k] == s.users[k]
    ensures callerId in s.users && out.reply.status == 200 ==>
              var u, u' := s.users[callerId], out.store.users[callerId];
              && u'.email == u.email && u'.password == u.password
              && u'.following == u.following && u'.followers == u.followers
              && (username.Some? ==> u'.username == username.value)
              && (username.None? ==> u'.username == u.username)
              && (avatar.Some? ==> u'.avatar == avatar) && (avatar.None? ==> u'.avatar == u.avatar)
              && (bio.Some? ==> u'.bio == bio) && (bio.None? ==> u'.bio == u.bio)
              && out.reply.body == UserDoc(ProfileOf(callerId, u'))
  {
    if username.Some? && username.value != "" && UsernameHeldByOther(s.users, username.value, callerId) then
      Reject(s, 400, UsernameTaken)
    else if callerId !in s.users then
      Outcome(Reply(200, Null), s)
    else
      var u := SetProfileFields(s.users[callerId], username, avatar, bio);
      Outcome(Reply(200, UserDoc(ProfileOf(callerId, u))), s.(users := s.users[callerId := u]))
  }

  /** Keeping one's own username is never a conflict, provided no one else holds it. */
  lemma OwnUsernameAllowed(s: Store, callerId: Id, avatar: Option<string>, bio: Option<string>)
    requires callerId in s.users
    requires forall k :: k in s.users && k != callerId ==> s.users[k].username != s.users[callerId].username
    ensures UpdateProfile(s, callerId, Some(s.users[callerId].username), avatar, bio).reply.status == 200
  {
  }

  /** The conflict check keeps usernames unique, as long as the new name is not the
      empty string (which skips the check); emails are never touched. */
  lemma UpdateKeepsUnique(s: Store, callerId: Id, username: Option<string>, avatar: Option<string>, bio: Option<string>)
    requires UniqueEmails(s.users) && UniqueUsernames(s.users)
    requires username.None? || username.value != ""
    ensures var users' := UpdateProfile(s, callerId, username, avatar, bio).store.users;
            UniqueEmails(users') && UniqueUsernames(users')
  {
  }

  /** Whatever the request, no two users end up sharing a non-empty username. */
  lemma UpdateKeepsNamedUnique(s: Store, callerId: Id, username: Option<string>, avatar: Option<string>, bio: Option<string>)
    requires UniqueEmails(s.users) && UniqueNamedUsernames(s.users)
    ensures var users' := UpdateProfile(s, callerId, username, avatar, bio).store.users;
            UniqueEmails(users') && UniqueNamedUsernames(users')
  {
  }

  /** The empty name skips the conflict check, so two users can end up sharing it: here
      user "2" takes the empty name user "1" already has. */
  lemma UpdateToEmptyNameDuplicates()
    ensures var s := Store(map["1" := User("a@pets", "", "h", None, None, [], []),
                               "2" := User("b@pets", "rex", "h", None, None, [], [])], map[]);
            && UniqueUsernames(s.users)
            && UpdateProfile(s, "2", Some(""), None, None).reply.status == 200
            && !UniqueUsernames(UpdateProfile(s, "2", Some(""), None, None).store.users)
  {
    var s := Store(map["1" := User("a@pets", "", "h", None, None, [], []),
                       "2" := User("b@pets", "rex", "h", None, None, [], [])], map[]);
    assert s.users["1"].username != s.users["2"].username;
    var users' := UpdateProfile(s, "2", Some(""), None, None).store.users;
    assert users'["1"].username == users'["2"].username;
  }

  // ---- The social graph ----

  /** B is in A's `following` exactly when A is in B's `followers`. */
  predicate Symmetric(users: map<Id, User>) {
    forall a, b :: a in users && b in users ==> (b in users[a].following <==> a in users[b].followers)
  }

  /** No user follows themself. */
  predicate NoSelfFollow(users: map<Id, User>) {
    forall a :: a in users ==> a !in users[a].following
  }

  /** Edges only lead to users that exist. */
  predicate Closed(users: map<Id, User>) {
    forall a, b :: a in users && b in users[a].following ==> b in users
  }

  predicate ClosedFollowers(users: map<Id, User>) {
    forall a, b :: a in users && b in users[a].followers ==> b in users
  }

  predicate GraphInvariant(users: map<Id, User>) {
    Symmetric(users) && NoSelfFollow(users) && Closed(users) && ClosedFollowers(users)
  }

  /** The two-sided update of the follow toggle, as one atomic step: if `c` follows `t`
      the edge is pulled from both arrays (all occurrences), otherwise it is added to
      both with add-to-set. Nothing else in the map changes. */
  function ToggleEdge(users: map<Id, User>, c: Id, t: Id): (r: map<Id, User>)
    requires c in users && t in users && c != t
    ensures r.Keys == users.Keys
    ensures forall k :: k in users && k != c && k != t ==> r[k] == users[k]
    ensures t in users[c].following ==> t !in r[c].following && c !in r[t].followers
    ensures t !in users[c].following ==> t in r[c].following && c in r[t].followers
    ensures forall y :: y != t ==> (y in r[c].following <==> y in users[c].following)
    ensures forall y :: y != c ==> (y in r[t].followers <==> y in users[t].followers)
    ensures r[c] == users[c].(following := r[c].following)
    ensures r[t] == users[t].(followers := r[t].followers)
  {
    var caller, target := users[c], users[t];
    if t in caller.following then
      users[c := caller.(following := Pull(caller.following, t))]
           [t := target.(followers := Pull(target.followers, c))]
    else
      users[c := caller.(following := AddToSet(caller.following, t))]
           [t := target.(followers := AddToSet(target.followers, c))]
  }

  /** Neither array the toggle touches gains a duplicate. */
  lemma ToggleEdgeKeepsNoDuplicates(users: map<Id, User>, c: Id, t: Id)
    requires c in users && t in users && c != t
    ensures NoDuplicates(users[c].following) ==> NoDuplicates(ToggleEdge(users, c, t)[c].following)
    ensures NoDuplicates(users[t].followers) ==> NoDuplicates(ToggleEdge(users, c, t)[t].followers)
  {
  }

  /** POST /users/:id/follow — toggles the caller's edge to user `targetId`. Checks run in
      the route's order: caller id present (401), not oneself (400), target exists
      (404), caller exists (404). The reply carries the caller's updated profile. */
  function Follow(s: Store, callerId: Id, targetId: Id): (out: Outcome)
    ensures !Present(callerId) ==> out == Reject(s, 401, NotAuthorized)
    ensures Present(callerId) && targetId == callerId ==> out == Reject(s, 400, CannotFollowSelf)
    ensures Present(callerId) && targetId != callerId && targetId !in s.users ==> out == Reject(s, 404, UserNotFound)
    ensures (Present(callerId) && targetId != callerId && targetId in s.users && callerId !in s.users) ==>
              out == Reject(s, 404, CurrentUserNotFound)
    ensures out.reply.status == 200 <==>
              Present(callerId) && targetId != callerId && targetId in s.users && callerId in s.users
    ensures out.reply.status != 200 ==> out.store == s
    ensures out.store.posts == s.posts && out.store.users.Keys == s.users.Keys
    ensures forall k :: k in s.users && k != callerId && k != targetId ==> out.store.users[k] == s.users[k]
    ensures out.reply.status == 200 ==>
              && (targetId in s.users[callerId].following <==> targetId !in out.store.users[callerId].following)
              && (targetId in out.store.users[callerId].following <==> callerId in out.store.users[targetId].followers)
              && out.reply.body == UserDoc(ProfileOf(callerId, out.store.users[callerId]))
    ensures out.reply.status == 200 ==>
              && out.store.users[callerId] == s.users[callerId].(following := out.store.users[callerId].following)
              && out.store.users[targetId] == s.users[targetId].(followers := out.store.users[targetId].followers)
              && (forall y :: y != targetId ==>
                    (y in out.store.users[callerId].following <==> y in s.users[callerId].following))
              && (forall y :: y != callerId ==>
                    (y in out.store.users[targetId].followers <==> y in s.users[targetId].followers))
  {
    if !Present(callerId) then Reject(s, 401, NotAuthorized)
    else if targetId == callerId then Reject(s, 400, CannotFollowSelf)
    else if targetId !in s.users then Reject(s, 404, UserNotFound)
    else if callerId !in s.users then Reject(s, 404, CurrentUserNotFound)
    else
      var users := ToggleEdge(s.users, callerId, targetId);
      Outcome(Reply(200, UserDoc(ProfileOf(callerId, users[callerId]))), s.(users := users))
  }

  /** A toggle between two distinct existing users keeps the graph symmetric. */
  lemma ToggleEdgeKeepsSymmetric(users: map<Id, User>, c: Id, t: Id)
    requires c in users && t in users && c != t
    requires Symmetric(users)
    ensures Symmetric(ToggleEdge(users, c, t))
  {
    var r := ToggleEdge(users, c, t);
    forall a, b | a in r && b in r
      ensures b in r[a].following <==> a in r[b].followers
    {
      if a == c && b == t {
      } else if a == c {
        assert b in r[a].following <==> b in users[a].following;
        assert a in r[b].followers <==> a in users[b].followers;
      } else if b == t {
        assert b in r[a].following <==> b in users[a].following;
        assert a in r[b].followers <==> a in users[b].followers;
      } else {
        assert r[a].following == users[a].following;
        assert r[b].followers == users[b].followers;
      }
    }
  }

  /** A toggle adds no self-edge and no edge to a missing user. */
  lemma ToggleEdgeKeepsClosed(users: map<Id, User>, c: Id, t: Id)
    requires c in users && t in users && c != t
    requires NoSelfFollow(users) && Closed(users) && ClosedFollowers(users)
    ensures var r := ToggleEdge(users, c, t);
            NoSelfFollow(r) && Closed(r) && ClosedFollowers(r)
  {
    var r := ToggleEdge(users, c, t);
    forall a | a in r ensures a !in r[a].following {
      if a != c {
        assert r[a].following == users[a].following;
      }
    }
    forall a, b | a in r && b in r[a].following ensures b in r {
      if a != c {
        assert r[a].following == users[a].following;
      }
    }
    forall a, b | a in r && b in r[a].followers ensures b in r {
      if a != t {
        assert r[a].followers == users[a].followers;
      }
    }
  }

  /** If the graph is symmetric before a follow call, it is symmetric after it. */
  lemma FollowKeepsSymmetric(s: Store, callerId: Id, targetId: Id)
    requires Symmetric(s.users)
    ensures Symmetric(Follow(s, callerId, targetId).store.users)
  {
    if Follow(s, callerId, targetId).reply.status == 200 {
      ToggleEdgeKeepsSymmetric(s.users, callerId, targetId);
    }
  }

  /** Every follow call, successful or not, keeps the whole graph invariant. */
  lemma FollowKeepsInvariant(s: Store, callerId: Id, targetId: Id)
    requires GraphInvariant(s.users)
    ensures GraphInvariant(Follow(s, callerId, targetId).store.users)
  {
    if Follow(s, callerId, targetId).reply.status == 200 {
      ToggleEdgeKeepsSymmetric(s.users, callerId, targetId);
      ToggleEdgeKeepsClosed(s.users, callerId, targetId);
    }
  }

  /** An admitted follow call stores exactly the toggled user map. */
  lemma FollowStore(s: Store, callerId: Id, targetId: Id)
    requires Present(callerId) && callerId != targetId && callerId in s.users && targetId in s.users
    ensures Follow(s, callerId, targetId).store == s.(users := ToggleEdge(s.users, callerId, targetId))
  {
  }

  /** A follow call rewrites only `following`/`followers` arrays, so emails and names
      stay unique. */
  lemma FollowKeepsUnique(s: Store, callerId: Id, targetId: Id)
    requires UniqueEmails(s.users) && UniqueNamedUsernames(s.users)
    ensures var users' := Follow(s, callerId, targetId).store.users;
            UniqueEmails(users') && UniqueNamedUsernames(users')
  {
    if Follow(s, callerId, targetId).reply.status == 200 {
      FollowStore(s, callerId, targetId);
      var users' := ToggleEdge(s.users, callerId, targetId);
      assert forall k :: k in s.users ==> users'[k].email == s.users[k].email && users'[k].username == s.users[k].username;
      SameNamesKeepUnique(s.users, users');
    }
  }

  /** The same user's two sequences hold the same ids. */
  ghost predicate SameMembers(xs: seq<Id>, ys: seq<Id>) {
    forall y :: y in xs <==> y in ys
  }

  /** Unfollowing then following again: both arrays hold the same ids as before. */
  lemma ToggleTwiceFromFollowing(users: map<Id, User>, c: Id, t: Id)
    requires c in users && t in users && c != t
    requires t in users[c].following && c in users[t].followers
    ensures var u2 := ToggleEdge(ToggleEdge(users, c, t), c, t);
            && SameMembers(u2[c].following, users[c].following)
            && SameMembers(u2[t].followers, users[t].followers)
  {
  }

  /** Following then unfollowing, from no edge on either side: the map comes back exactly. */
  lemma ToggleTwiceFromNotFollowing(users: map<Id, User>, c: Id, t: Id)
    requires c in users && t in users && c != t
    requires t !in users[c].following && c !in users[t].followers
    ensures ToggleEdge(ToggleEdge(users, c, t), c, t) == users
  {
    var u1 := ToggleEdge(users, c, t);
    var u2 := ToggleEdge(u1, c, t);
    FollowFields(users, c, t);
    UnfollowFields(u1, c, t);
    PullAppended(users[c].following, t);
    PullAppended(users[t].followers, c);
    assert u2[c] == users[c];
    assert u2[t] == users[t];
    SameEntries(u2, users);
  }

  /** From no edge, the toggle appends on both sides. */
  lemma FollowFields(users: map<Id, User>, c: Id, t: Id)
    requires c in users && t in users && c != t
    requires t !in users[c].following && c !in users[t].followers
    ensures ToggleEdge(users, c, t)[c].following == users[c].following + [t]
    ensures ToggleEdge(users, c, t)[t].followers == users[t].followers + [c]
  {
  }

  /** From an edge, the toggle pulls on both sides. */
  lemma UnfollowFields(users: map<Id, User>, c: Id, t: Id)
    requires c in users && t in users && c != t
    requires t in users[c].following
    ensures ToggleEdge(users, c, t)[c].following == Pull(users[c].following, t)
    ensures ToggleEdge(users, c, t)[t].followers == Pull(users[t].followers, c)
  {
  }

  /** Two user maps with the same keys and the same document under each key are equal. */
  lemma SameEntries(a: map<Id, User>, b: map<Id, User>)
    requires a.Keys == b.Keys && forall k :: k in a ==> a[k] == b[k]
    ensures a == b
  {
  }

  /** From a symmetric graph, following and then unfollowing (or the reverse) gives both
      users back their `following` and `followers` as sets; when the caller did not follow
      the target to begin with, the arrays come back identically (the converse does not
      hold). No other user changes. */
  lemma FollowTwiceRestores(s: Store, callerId: Id, targetId: Id)
    requires Symmetric(s.users)
    requires Present(callerId) && callerId != targetId && callerId in s.users && targetId in s.users
    ensures var s2 := Follow(Follow(s, callerId, targetId).store, callerId, targetId).store;
            && s2.users.Keys == s.users.Keys
            && (forall k :: k in s.users && k != callerId && k != targetId ==> s2.users[k] == s.users[k])
            && SameMembers(s2.users[callerId].following, s.users[callerId].following)
            && SameMembers(s2.users[targetId].followers, s.users[targetId].followers)
            && s2.users[callerId].followers == s.users[callerId].followers
            && s2.users[targetId].following == s.users[targetId].following
            && (targetId !in s.users[callerId].following ==> s2.users == s.users)
  {
    var c, t := callerId, targetId;
    var u1 := ToggleEdge(s.users, c, t);
    FollowStore(s, c, t);
    FollowStore(s.(users := u1), c, t);
    if t in s.users[c].following {
      ToggleTwiceFromFollowing(s.users, c, t);
    } else {
      ToggleTwiceFromNotFollowing(s.users, c, t);
    }
  }
}

=== FILE: wrappers.dfy ===
/** The optional-value datatype used throughout the model for JavaScript's `undefined`/`null`. */
module Wrappers {

  datatype Option<+T> = None | Some(value: T) {

    /** Returns the wrapped value, or `default` when there is none (JavaScript's `??`). */
    function GetOr(default: T): T {
      match this
      case Some(v) => v
      case None => default
    }
  }
}
